=== FILE: README.md ===
# Whitelist intake workflow: a Dafny model

This project models the whitelist (applicant-intake) workflow of a Discord bot for a role-play game server. It covers three parts:

- **The intake session.** An applicant clicks "Iniciar Whitelist". A private channel is created and six fixed questions are asked one at a time. Each answer is the applicant's next message, collected within a time limit. On completion the answers are posted to the staff review channel with an approve and a reject button, and a `pendente` record is stored. On a timeout the channel is removed and nothing is stored.
- **The decision handler.** A staff click on a button loads the applicant's latest pending record.
  - Approve announces the approval, grants the role, saves the record as `aprovado` and sends the `/rcon adduser` provisioning command.
  - Reject asks the admin for a reason. It commits `reprovado` only when that admin's message arrives in time.
- **The interaction router.** It decides which handler a click reaches, and how a click is acknowledged when something goes wrong.

The model contains no Discord or MongoDB I/O. Every await point is an input:

- What the collectors receive is a sequence of `Event`s. Each one is a message arriving at the collector listening at that moment (`Arrive`) or that collector's time limit firing (`Timeout`). A session's collectors listen one after the other, so one sequence feeds all six in turn. A message sent while no collector is listening is not an event.
- The record store is a `seq<Record>` in insertion order.
- Creation time `data` is an abstract `nat`.
- An I/O call that throws is an explicit input. The decision handler takes a `Fault`. The start handler takes an `Opening`: channel creation throws, the reply to the start click throws, or both succeed. On completion, a review channel of `None` stands for any throw before the record is saved. That covers the staff-channel fetch (whitelistHandler.js:126-127), an embed the platform refuses (lines 129-141, for example an answer longer than Discord's 1024-character field limit), and a failing review post (line 153). Each of these throws inside the collector's callback: nothing is stored and the private channel stays.

One `Collector.Collect` models `createMessageCollector({ filter: author, max: 1, time })`. Both the question loop and the wait for a rejection reason use it.

Modules, following the source:

- `Strings`: JavaScript `startsWith`, `includes`, and `split` on one character.
- `Schema`: the record, its status enum, its defaults and its required fields.
- `Questions`: the six questions.
- `Collector`: the one-shot message collector.
- `Session`: the question loop.
- `Intake`: the whole start handler.
- `Buttons`: the button ids.
- `Store`: the pending lookup and the decision write.
- `Decision`: the approve/reject handler.
- `Router`: the `InteractionCreate` listener.
- `Setup`: the start-prompt guard.
- `Workflow`: properties across components.

The model follows the code in these places, where a reader might expect otherwise:

- Store writes are not retried.
- A click on an already decided application gets the same "no pending WL found" warning as a missing one. There is no separate "already decided" reply.
- The rejection reason is never stored: `motivoReprovacao` stays null. It only appears in the rejection notice.
- When the rejection reason times out, nothing is sent. The record stays `pendente`.
- If creating the private channel throws, the error is only logged and the start click is never acknowledged. If the channel is created but the reply to the start click throws, the error is also only logged: no question is asked and the channel stays.
- The handler declares its own schema at whitelistHandler.js:13-22, with no `required`, `enum` or `motivoReprovacao`. That is the model the running bot uses. The record type here follows models/WhitelistSchema.js. `Workflow.WellFormed` shows that every record the workflow writes also satisfies that file's rules.

## Model

| member | source | states |
|---|---|---|
| Schema.ParseStatus | models/WhitelistSchema.js:12 | the status enum accepts exactly "pendente", "aprovado", "reprovado", and each accepted name reads back to a status stored under that name |
| Schema.StatusRoundTrip | models/WhitelistSchema.js:12 | every status is stored under a name the enum accepts and reads back as itself |
| Schema.Valid | models/WhitelistSchema.js:4-5 | the `required` rule holds exactly when `userId` and `userName` are both non-empty strings |
| Schema.NewRecord | models/WhitelistSchema.js:12-16 | a new record defaults to status "pendente" and to null `aprovadoPor`, `motivoReprovacao` and `canalLog`, keeping the given required fields |
| Questions.PerguntasShape | whitelistHandler.js:34-62 | the questionnaire has exactly six questions with pairwise distinct keys |
| Collector.Collect | whitelistHandler.js:194-198 | a collector ends at the first message by the expected author or at the first timeout, whichever comes first; every earlier message is by someone else; it keeps waiting if neither occurs |
| Session.Run | whitelistHandler.js:120-211 | the question loop only extends the answers it holds; it completes with exactly six answers, stays in progress with fewer, or expires at a question index it had reached |
| Session.RunMatches | whitelistHandler.js:185-209 | from any point, the loop ends as the collector-free description says: complete after six accepted messages, expired if a timeout comes first, otherwise still waiting |
| Session.StartMatches | whitelistHandler.js:120-217 | a whole session equals the collector-free description over the applicant's messages before the first timeout |
| Session.CompletedAnswers | whitelistHandler.js:200-203 | a session completes exactly when its collectors receive six applicant messages before any timeout; entry k then has key `perguntas[k].pergunta` and the text of the k-th accepted message, which is the applicant's |
| Session.ExpiredAt | whitelistHandler.js:205-209 | a session expires at question q exactly when a timeout fires after only q < 6 accepted messages |
| Intake.DisplayName | whitelistHandler.js:163 | the stored name is never empty: the first answer when it is non-empty, otherwise "Desconhecido" |
| Intake.Submission | whitelistHandler.js:161-168 | the stored record is the applicant's, pending, named by the fallback rule, holds the answers, the submission time and the review channel, has no decider or reason, and passes the required-field rule of models/WhitelistSchema.js exactly when the applicant id is non-empty |
| Intake.Conclude | whitelistHandler.js:121-209 | after the loop: completion with the review channel reachable posts the answers with an approve button `aprovar_<applicant>` and a reject button `reprovar_<applicant>`, appends exactly the submission record, confirms to the applicant and deletes the channel, in that order; expiry posts the timeout notice and deletes the channel; a throw before the save stores nothing, posts no review and sends no confirmation, and leaves the channel |
| Intake.Run | whitelistHandler.js:96-221 | one intake appends at most one record, and does so exactly when the session opens, completes and the review post is delivered; that record is the applicant's, pending, holds the session's answers and the review channel, and has no decider or reason; the start click is acknowledged once if the session opens, never otherwise; a failed acknowledgement leaves the created channel with no session |
| Intake.PostsReview | whitelistHandler.js:143-177 | a whole intake that opens and completes with the review channel reachable has exactly five effects: channel created, start click acknowledged, the review post with the session's answers and the applicant's approve and reject ids, the confirmation, the channel deletion; any other intake posts no review and sends no confirmation |
| Intake.StoredAnswers | whitelistHandler.js:161-168 | the stored record holds six answers in question order, each the text of the applicant's matching message, and is named after the first message unless it is empty |
| Intake.TimeoutStoresNothing | whitelistHandler.js:205-209 | a session that times out leaves the store unchanged |
| Buttons.ButtonId | whitelistHandler.js:143-151 | a decision button id is the action's prefix followed by the applicant id |
| Buttons.TargetUser | whitelistHandler.js:227 | `split("_")[1]` is undefined exactly when the id has no underscore, and never contains one |
| Buttons.ActionOf | whitelistHandler.js:228 | an id is read as approve exactly when it starts with "aprovar_", so an id starting with "reprovar_" is always a reject |
| Buttons.ButtonParse | whitelistHandler.js:227-228 | for any applicant id, the approve/reject button id reads back the right action and, through `split("_")[1]`, the id up to its first underscore |
| Buttons.ButtonRoundTrip | whitelistHandler.js:143-151 | for an id with no underscore, `aprovar_<id>` and `reprovar_<id>` read back exactly that id and action |
| Buttons.DecisionIdHasTarget | whitelistHandler.js:227 | every id starting with "aprovar_" or "reprovar_" has a field after the first underscore, so the target user is defined |
| Buttons.StartIsNotDecision | index.js:84-93 | "iniciar_wl" starts with neither decision prefix |
| Store.LatestPending | whitelistHandler.js:230 | the lookup returns a pending record of the user whose `data` is at least that of every other pending record of the user, and returns nothing exactly when the user has no pending record |
| Store.Decided | whitelistHandler.js:261-262 | a decision sets the status and the deciding admin's name and keeps every other field of the record |
| Store.LatestPendingAppend | whitelistHandler.js:230 | a newly stored pending record at least as recent as the user's other pending records is the one the lookup finds |
| Store.DecidingLastPending | whitelistHandler.js:261-263 | after the user's only pending record is decided, the lookup finds nothing for that user |
| Decision.PasswordIndex | whitelistHandler.js:266 | the password lookup finds the first answer whose key contains "Senha", and finds none exactly when no key contains it |
| Decision.Password | whitelistHandler.js:266 | the password is the answer found by the lookup when there is one and it is non-empty, and "sem_senha" otherwise; it is never empty |
| Decision.RconCommand | whitelistHandler.js:267 | the command is "/rcon adduser nick:", then the nick, a space, "senha:" and the password, which ends it |
| Decision.RconRoundTrip | whitelistHandler.js:267 | reading the command back by spaces after the prefix gives the nick when it has no space (otherwise the nick up to its first space), and the text after the password tag is the password |
| Decision.ApproveFound | whitelistHandler.js:236-274 | approval acknowledges exactly once; it changes only the found record, only to `aprovado` by the admin, and exactly when neither the announcement nor the save throws |
| Decision.RejectFound | whitelistHandler.js:275-299 | rejection acknowledges exactly once (the reason prompt); it changes only the found record, only to `reprovado` by the admin, and exactly when the admin's message is collected and neither the notice nor the save throws |
| Decision.Handle | whitelistHandler.js:224-307 | every decision click gets exactly one acknowledgement; with no pending record the store is unchanged and the warning is the only effect; otherwise only the latest pending record can change, to the action's terminal status with the admin's name, and exactly when the write is reached |
| Decision.RepeatedDecisionIsNoOp | whitelistHandler.js:230-231 | once the user's only pending record is approved, a second approve or reject click only gets the warning and changes nothing |
| Decision.RejectWithoutReason | whitelistHandler.js:276-280 | a reject click whose reason never comes from the clicking admin only sends the prompt and leaves the record pending |
| Decision.RejectWithReason | whitelistHandler.js:281-298 | a reject click commits `reprovado` by the admin only together with the admin's first message, and that message's text is the reason in the rejection notice |
| Decision.ApproveEffects | whitelistHandler.js:237-274 | a fault-free approval announces the record's name, grants the role when configured, sends `/rcon adduser nick:<userName> senha:<password>` when the command channel exists, and acknowledges last |
| Decision.NoticeSurvivesFailedSave | whitelistHandler.js:237-263 | when saving the approval fails, the announcement has already gone out while the record stays pending |
| Decision.TerminalRecordsUnchanged | whitelistHandler.js:230 | approved and rejected records are never changed by a decision |
| Router.RouteOf | index.js:67-93 | non-buttons are ignored; a missing id gets the invalid-interaction reply only if not yet replied; "iniciar_wl" goes to the start handler; ids with a decision prefix go to the decision handler, always with a target user; anything else does nothing |
| Router.OwnButtonsRouted | index.js:84-93 | the start button and every approve/reject button the workflow creates reach their handler |
| Router.ErrorAck | index.js:97-108 | the catch block follows up exactly when the interaction was already replied to or deferred, and that choice is always one the platform accepts |
| Router.RouterAcks | index.js:67-113 | the router itself sends at most one acknowledgement, always one the platform accepts; a thrown handler error and a missing id always get one; an ignored interaction gets none |
| Setup.Setup | whitelistHandler.js:65-93 | the start prompt is posted exactly when the start channel exists and has no messages |
| Setup.PostsAtMostOnce | whitelistHandler.js:69-73 | running the guard again after it ran never posts a second prompt |
| Strings.StartsWith | whitelistHandler.js:228 | `startsWith` holds exactly when the prefix fits and agrees with the string character by character |
| Strings.Contains | whitelistHandler.js:266 | `includes` holds for the empty string and for any prefix of the string, and never for a string longer than the one searched |
| Strings.Field | whitelistHandler.js:227 | `split(sep)[k]` is undefined exactly when the split has at most k pieces, and a defined field never contains the separator |
| Strings.Split | whitelistHandler.js:227 | `split` on one character yields at least one piece, and no piece contains the separator |
| Strings.JoinSplit | whitelistHandler.js:227 | joining the pieces of `split` with the separator gives back the original string |
| Strings.SplitJoin | whitelistHandler.js:227 | splitting a join of separator-free pieces gives back the pieces |
| Workflow.IntakePreserves | whitelistHandler.js:161-168 | an intake keeps every stored record well formed: required fields present, six answers keyed in question order, linked to the review channel, no reason stored, a decider exactly when decided |
| Workflow.DecisionPreserves | whitelistHandler.js:261-263 | a decision keeps every stored record well formed |
| Workflow.PasswordOfSubmission | whitelistHandler.js:266 | for a completed questionnaire the password is the third answer, or "sem_senha" when that answer is empty |
| Workflow.SubmittedRecord | whitelistHandler.js:161-168 | a completed intake appends one pending record of the applicant, stamped with the submission time, named after the first answer, whose password is the third answer |
| Workflow.ApproveNewest | whitelistHandler.js:236-274 | a fault-free approval with the command channel present approves the newest pending record and produces the announcement, the role grant exactly when a role is configured, the command built from that record, and the acknowledgement |
| Workflow.DecisionButtons | index.js:90-93 | for an applicant id without `_`, the approve or reject id built for it reaches the decision handler whether or not the click was already replied to, parses back to its action and names that applicant |
| Workflow.PostedButtonsTarget | whitelistHandler.js:143-168 | the review post of a completed intake carries the stored record's user id and answers, and its two buttons are routed to the decision handler, one approving and one rejecting, both naming the user of that record |
| Workflow.IntakeThenApprove | whitelistHandler.js:143-274 | intake followed by a staff click on the approve button of the resulting review post, with nothing failing and the command channel present, approves the new record, grants the role exactly when one is configured, and sends exactly `/rcon adduser nick:<first answer> senha:<third answer>`, using the fallbacks when those answers are empty |

## Left out

- Discord rendering is not modelled: embeds, the welcome and per-question messages, button styles and labels, the file attachment of the review post, and the text of the announcements. The rejection notice keeps only the applicant and the reason.
- Channel creation, permission overwrites and fetches are not modelled. The model keeps only whether the private channel, the review channel and the command channel exist.
- The temporary answers file, the 8-second grace delay before deletion, `Date` values and `toLocaleString` are not modelled. Creation time is an abstract number.
- Messages the applicant sends between two questions are not modelled. Each question's collector is created only after that question has been posted, and a reject's reason collector only after the prompt. The source drops anything sent before that, so such messages are not events.
- Time limits are not modelled as durations. The 300000 ms question limit and the 120000 ms reason limit are `Timeout` events.
- Some throw points are not modelled: a failing save of a new submission, and failing sends into the private channel after the start reply. Also left out: a channel deleted externally mid-session, and a failing `msg.reply`. The modelled faults are those of the decision handler (user fetch, announcement, save, command-channel fetch) and, in the start handler, the opening steps and everything before the save (see above). A failed role grant is caught and logged in the source, so `RoleGranted` means "attempted".
- Concurrency is not modelled: two staff clicks racing on one record, two reject collectors on one channel, a second start click by the same applicant, and interleaving between the lookup and the save. Decisions run one at a time.
- The MongoDB connection, the Express keep-alive server, login and process-level handlers are left out. They are plumbing.
- A failing reply after a decision is not modelled as its own fault: the approval reply (whitelistHandler.js:274), thrown for example when the platform's acknowledgement deadline has passed, comes after the save and the command send, so the record is already `aprovado`; a failing reason prompt (line 276) throws before the reason collector exists, so the record stays `pendente`. Either throw reaches the handler's own catch block (lines 301-305), and neither changes what the model stores.
- A nick with a space makes the provisioning command ambiguous to a reader that splits on spaces. `Decision.RconRoundTrip` shows the nick comes back only up to its first space. The command channel's consumer is not part of this model.
- Ties in the lookup are not pinned down. When two pending records of a user have the same `data`, MongoDB's order is unspecified. `Store.LatestPending` picks the later-stored one, but its contract only promises "a pending record with the latest `data`".

=== FILE: buttons.dfy ===
/**
 * Button identifiers (`customId`): the start button, and the approve/reject
 * buttons attached to a review posting, which carry the applicant's id after
 * an underscore and are read back with `split("_")[1]` and `startsWith`.
 */
module Buttons {
  import opened Wrappers
  import opened Strings

  const StartId: string := "iniciar_wl"
  const ApprovePrefix: string := "aprovar_"
  const RejectPrefix: string := "reprovar_"

  datatype Action = Approve | Reject

  function Prefix(a: Action): string {
    match a
    case Approve => ApprovePrefix
    case Reject => RejectPrefix
  }

  /** The `customId` of the approve or reject button for an applicant. */
  function ButtonId(a: Action, userId: string): (id: string)
    ensures StartsWith(id, Prefix(a)) && id[|Prefix(a)|..] == userId
  {
    Prefix(a) + userId
  }

  /** An id the interaction router hands to the decision handler. */
  predicate IsDecisionId(customId: string) {
    StartsWith(customId, ApprovePrefix) || StartsWith(customId, RejectPrefix)
  }

  /**
   * `customId.split("_")[1]`: the applicant the decision is about. It is
   * `undefined` (None) exactly when the id has no underscore, and never
   * contains one.
   */
  function TargetUser(customId: string): (u: Option<string>)
    ensures u.None? <==> '_' !in customId
    ensures u.Some? ==> '_' !in u.value
  {
    SplitSingle(customId, '_');
    Field(customId, '_', 1)
  }

  /**
   * `customId.startsWith("aprovar_")` decides approve; anything else is a
   * reject, and a reject button is never read as an approval.
   */
  function ActionOf(customId: string): (a: Action)
    ensures a == Approve <==> StartsWith(customId, ApprovePrefix)
    ensures StartsWith(customId, RejectPrefix) ==> a == Reject
  {
    if StartsWith(customId, ApprovePrefix) then
      assert customId[0] == 'a';
      Approve
    else Reject
  }

  /** Both button prefixes are a word followed by the separator. */
  lemma PrefixShape(a: Action)
    ensures Prefix(a) == Prefix(a)[..|Prefix(a)| - 1] + ['_']
    ensures '_' !in Prefix(a)[..|Prefix(a)| - 1]
  {
    match a
    case Approve => assert ApprovePrefix == "aprovar" + ['_'];
    case Reject => assert RejectPrefix == "reprovar" + ['_'];
  }

  /**
   * The parsed target of a button is the applicant id up to its first
   * underscore, and the action is read back correctly, whatever the id.
   */
  lemma ButtonParse(a: Action, userId: string)
    ensures ActionOf(ButtonId(a, userId)) == a
    ensures TargetUser(ButtonId(a, userId)) == Some(Split(userId, '_')[0])
    ensures IsDecisionId(ButtonId(a, userId))
  {
    var word := Prefix(a)[..|Prefix(a)| - 1];
    PrefixShape(a);
    assert ButtonId(a, userId) == word + ['_'] + userId;
    SplitAfterPrefix(word, '_', userId);
    assert ButtonId(a, userId)[..|Prefix(a)|] == Prefix(a);
    if a == Reject {
      assert ButtonId(a, userId)[0] == 'r';
    }
  }

  /** For an id without an underscore the button id round-trips exactly. */
  lemma ButtonRoundTrip(a: Action, userId: string)
    requires '_' !in userId
    ensures ActionOf(ButtonId(a, userId)) == a
    ensures TargetUser(ButtonId(a, userId)) == Some(userId)
  {
    ButtonParse(a, userId);
    assert IndexOf(userId, '_') == None;
  }

  /** Every id routed to the decision handler has a target field. */
  lemma DecisionIdHasTarget(customId: string)
    requires IsDecisionId(customId)
    ensures TargetUser(customId).Some?
  {
    var a := if StartsWith(customId, ApprovePrefix) then Approve else Reject;
    var rest := customId[|Prefix(a)|..];
    assert customId == ButtonId(a, rest);
    ButtonParse(a, rest);
  }

  /** The start button's id is not a decision id, so it can never reach the decision handler. */
  lemma StartIsNotDecision()
    ensures !IsDecisionId(StartId)
  {
    assert StartId[0] == 'i';
  }
}

=== FILE: collector.dfy ===
/**
 * A one-shot message collector (`createMessageCollector` with an author
 * filter, `max: 1` and a `time` limit). Everything that can happen while it
 * listens is an input event: a message arriving in the channel, or the time
 * limit elapsing.
 */
module Collector {

  datatype Message = Message(authorId: string, content: string)

  datatype Event = Arrive(msg: Message) | Timeout

  /**
   * How a collector ends: it consumed the message at position `at`, its time
   * limit fired at position `at`, or it is still listening after every event.
   */
  datatype Collected = Got(at: nat) | TimedOut(at: nat) | Waiting

  /** A message from someone other than the expected author: the filter drops it. */
  predicate Ignored(expected: string, e: Event) {
    e.Arrive? && e.msg.authorId != expected
  }

  /**
   * Runs one collector for messages by `expected` over `events`: the first
   * event that is either a message by `expected` or the time limit decides it.
   */
  function Collect(expected: string, events: seq<Event>): (r: Collected)
    ensures r.Got? ==> r.at < |events| && events[r.at].Arrive? && events[r.at].msg.authorId == expected
    ensures r.TimedOut? ==> r.at < |events| && events[r.at] == Timeout
    ensures r.Got? || r.TimedOut? ==> forall j :: 0 <= j < r.at ==> Ignored(expected, events[j])
    ensures r.Waiting? ==> forall j :: 0 <= j < |events| ==> Ignored(expected, events[j])
  {
    if |events| == 0 then Waiting
    else if events[0].Timeout? then TimedOut(0)
    else if events[0].msg.authorId == expected then Got(0)
    else match Collect(expected, events[1..])
      case Got(k) => Got(k + 1)
      case TimedOut(k) => TimedOut(k + 1)
      case Waiting => Waiting
  }
}

=== FILE: decision.dfy ===
/**
 * The staff decision handler (`gerenciarWhitelist`): the clicked button names
 * the action and the applicant, the latest pending record of that applicant
 * is loaded, and approval or rejection is carried out. Approval posts the
 * announcement, grants the role, saves the record and sends the provisioning
 * command; rejection first waits for the admin's reason message and commits
 * only once it arrives.
 */
module Decision {
  import opened Wrappers
  import opened Strings
  import opened Schema
  import opened Collector
  import opened Buttons
  import opened Store

  /** The staff member who clicked: the id the reason collector filters on, the name that is stored. */
  datatype Admin = Admin(id: string, username: string)

  /**
   * The step of the handler whose I/O call throws, if any: fetching the
   * applicant's user, posting the announcement, saving the record, or
   * reaching the provisioning channel. RconFetchFails stands both for the
   * channel fetch and for the send of the command on it: either way the
   * record is already saved and nothing after it runs.
   */
  datatype Fault = UserFetchFails | NoticeFails | SaveFails | RconFetchFails

  /**
   * The surroundings of one decision: whether an approved-member role is
   * configured, whether the provisioning channel is available, and the
   * failing step. A failed role grant is caught and logged, so it is not a fault.
   */
  datatype Env = Env(approvedRole: bool, rconChannel: bool, fault: Option<Fault>)

  /** The ephemeral replies that acknowledge the click. */
  datatype Reply = NoPendingWarning | ApprovedBy(username: string) | ReasonPrompt | ErrorNotice

  /** Externally visible actions of a decision, in order. */
  datatype Effect =
    | Replied(reply: Reply)
    | ApprovalNotice(userId: string, userName: string)
    | RoleGranted(userId: string)
    | RconSent(command: string)
    | RejectionNotice(userId: string, reason: string)
    | ReasonAcknowledged(userId: string)

  datatype Result = Result(store: seq<Record>, effects: seq<Effect>)

  /** Number of replies acknowledging the click among the effects. */
  function Acks(effects: seq<Effect>): nat {
    if |effects| == 0 then 0 else (if effects[0].Replied? then 1 else 0) + Acks(effects[1..])
  }

  lemma {:induction false} AcksAppend(a: seq<Effect>, b: seq<Effect>)
    ensures Acks(a + b) == Acks(a) + Acks(b)
    decreases |a|
  {
    if |a| > 0 {
      assert (a + b)[0] == a[0];
      assert (a + b)[1..] == a[1..] + b;
      AcksAppend(a[1..], b);
    } else {
      assert a + b == b;
    }
  }

  const PasswordMarker: string := "Senha"
  const NoPassword: string := "sem_senha"

  /** Position of the first answer whose question key contains "Senha". */
  function PasswordIndex(answers: seq<Answer>): (r: Option<nat>)
    ensures r.Some? ==> r.value < |answers| && Contains(answers[r.value].pergunta, PasswordMarker)
    ensures r.Some? ==> forall j :: 0 <= j < r.value ==> !Contains(answers[j].pergunta, PasswordMarker)
    ensures r.None? <==> forall j :: 0 <= j < |answers| ==> !Contains(answers[j].pergunta, PasswordMarker)
  {
    if |answers| == 0 then None
    else if Contains(answers[0].pergunta, PasswordMarker) then Some(0)
    else match PasswordIndex(answers[1..])
      case None => None
      case Some(i) => Some(i + 1)
  }

  /**
   * `find(r => r.pergunta.includes("Senha"))?.resposta || "sem_senha"`: the
   * answer to the first password question, or the placeholder when there is
   * none or it is empty.
   */
  function Password(answers: seq<Answer>): (pw: string)
    ensures |pw| > 0
    ensures pw != NoPassword ==> exists i :: PasswordIndex(answers) == Some(i) && answers[i].resposta == pw
    ensures PasswordIndex(answers).None? ==> pw == NoPassword
    ensures PasswordIndex(answers).Some? && answers[PasswordIndex(answers).value].resposta != "" ==>
              pw == answers[PasswordIndex(answers).value].resposta
    ensures PasswordIndex(answers).Some? && answers[PasswordIndex(answers).value].resposta == "" ==>
              pw == NoPassword
  {
    match PasswordIndex(answers)
    case Some(i) => if answers[i].resposta != "" then answers[i].resposta else NoPassword
    case None => NoPassword
  }

  /** The fixed parts of the provisioning command. */
  const RconPrefix: string := "/rcon adduser nick:"
  const SenhaTag: string := "senha:"

  /**
   * The provisioning command sent to the command channel: the fixed prefix,
   * the nick, a space, the password tag and the password.
   */
  function RconCommand(nick: string, senha: string): (cmd: string)
    ensures |cmd| == |RconPrefix| + |nick| + 1 + |SenhaTag| + |senha|
    ensures StartsWith(cmd, RconPrefix)
    ensures cmd[|RconPrefix|..] == nick + [' '] + (SenhaTag + senha)
    ensures cmd[|cmd| - |senha|..] == senha
  {
    RconPrefix + (nick + [' '] + (SenhaTag + senha))
  }

  /** Spelled out, the command reads exactly as the handler writes it. */
  lemma RconCommandText(nick: string, senha: string)
    ensures RconCommand(nick, senha) == "/rcon adduser nick:" + nick + " senha:" + senha
  {
    assert SenhaTag + senha == "senha:" + senha;
  }

  /**
   * Reading the command back by spaces after the prefix recovers the nick,
   * and the text after the password tag is the password, whenever the nick
   * has no space; a nick with a space is cut at its first space.
   */
  lemma RconRoundTrip(nick: string, senha: string)
    ensures Split(RconCommand(nick, senha)[|RconPrefix|..], ' ')[0] == Split(nick, ' ')[0]
    ensures ' ' !in nick ==> Split(RconCommand(nick, senha)[|RconPrefix|..], ' ')[0] == nick
    ensures RconCommand(nick, senha)[|RconPrefix|..][|nick| + 1 + |SenhaTag|..] == senha
  {
    SpacedFields(nick, SenhaTag, senha);
  }

  /** The text after the prefix, read back field by field. */
  lemma SpacedFields(nick: string, tag: string, senha: string)
    ensures Split(nick + [' '] + (tag + senha), ' ')[0] == Split(nick, ' ')[0]
    ensures ' ' !in nick ==> Split(nick + [' '] + (tag + senha), ' ')[0] == nick
    ensures (nick + [' '] + (tag + senha))[|nick| + 1 + |tag|..] == senha
  {
    var tail := tag + senha;
    SplitHeadAppend(nick, ' ', tail);
    assert (nick + [' '] + tail)[|nick| + 1..] == tail;
    if ' ' !in nick {
      assert IndexOf(nick, ' ') == None;
    }
  }

  /** Approval of the found record at `k` (the user fetch already succeeded). */
  function ApproveFound(store: seq<Record>, k: nat, userId: string, admin: Admin, env: Env): (res: Result)
    requires k < |store| && store[k].status == Pendente
    ensures Acks(res.effects) == 1
    ensures res.store == store || res.store == store[k := Decided(store[k], Aprovado, admin.username)]
    ensures res.store != store <==> env.fault !in {Some(NoticeFails), Some(SaveFails)}
  {
    var wl := store[k];
    if env.fault == Some(NoticeFails) then Result(store, [Replied(ErrorNotice)])
    else
      var announced := [ApprovalNotice(userId, wl.userName)] + (if env.approvedRole then [RoleGranted(userId)] else []);
      if env.fault == Some(SaveFails) then
        AcksAppend(announced, [Replied(ErrorNotice)]);
        Result(store, announced + [Replied(ErrorNotice)])
      else
        var saved := store[k := Decided(wl, Aprovado, admin.username)];
        assert saved[k].status != store[k].status;
        AcksAppend(announced, [Replied(ErrorNotice)]);
        if env.fault == Some(RconFetchFails) then Result(saved, announced + [Replied(ErrorNotice)])
        else
          var rcon := if env.rconChannel then [RconSent(RconCommand(wl.userName, Password(wl.respostas)))] else [];
          AcksAppend(announced + rcon, [Replied(ApprovedBy(admin.username))]);
          AcksAppend(announced, rcon);
          Result(saved, announced + rcon + [Replied(ApprovedBy(admin.username))])
  }

  /**
   * Rejection of the found record at `k`: the admin is asked for a reason and
   * `events` is what then happens in the channel. A failure inside the
   * collector's callback is not caught, so it ends the flow silently.
   */
  function RejectFound(store: seq<Record>, k: nat, userId: string, admin: Admin, env: Env,
                       events: seq<Event>): (res: Result)
    requires k < |store| && store[k].status == Pendente
    ensures Acks(res.effects) == 1
    ensures res.store == store || res.store == store[k := Decided(store[k], Reprovado, admin.username)]
    ensures res.store != store <==> Collect(admin.id, events).Got? && env.fault !in {Some(NoticeFails), Some(SaveFails)}
  {
    var prompt := [Replied(ReasonPrompt)];
    match Collect(admin.id, events)
    case Got(at) =>
      var reason := events[at].msg.content;
      if env.fault == Some(NoticeFails) then Result(store, prompt)
      else
        var announced := prompt + [RejectionNotice(userId, reason)];
        AcksAppend(prompt, [RejectionNotice(userId, reason)]);
        if env.fault == Some(SaveFails) then Result(store, announced)
        else
          var saved := store[k := Decided(store[k], Reprovado, admin.username)];
          assert saved[k].status != store[k].status;
          AcksAppend(announced, [ReasonAcknowledged(userId)]);
          Result(saved, announced + [ReasonAcknowledged(userId)])
    case _ => Result(store, prompt)
  }

  /** Whether the record write of a found decision happens. */
  predicate Commits(a: Action, admin: Admin, env: Env, events: seq<Event>) {
    env.fault !in {Some(UserFetchFails), Some(NoticeFails), Some(SaveFails)} &&
    (a == Reject ==> Collect(admin.id, events).Got?)
  }

  /** The status a committed action writes. */
  function Target(a: Action): Status {
    match a
    case Approve => Aprovado
    case Reject => Reprovado
  }

  /**
   * Handles one click on a decision button. Exactly one acknowledgement is
   * sent; only the latest pending record of the target user can change, to
   * the action's terminal status with the admin's name, and only when the
   * write is reached; with no pending record nothing changes.
   */
  function Handle(store: seq<Record>, customId: string, admin: Admin, env: Env, events: seq<Event>): (res: Result)
    requires IsDecisionId(customId)
    ensures TargetUser(customId).Some?
    ensures |res.store| == |store|
    ensures Acks(res.effects) == 1
    ensures var found := LatestPending(store, TargetUser(customId).value);
      && (found.None? ==> res == Result(store, [Replied(NoPendingWarning)]))
      && (forall j :: 0 <= j < |store| && Some(j) != found ==> res.store[j] == store[j])
      && (found.Some? ==>
            res.store[found.value] == (if Commits(ActionOf(customId), admin, env, events)
                                       then Decided(store[found.value], Target(ActionOf(customId)), admin.username)
                                       else store[found.value]))
  {
    DecisionIdHasTarget(customId);
    var userId := TargetUser(customId).value;
    match LatestPending(store, userId)
    case None => Result(store, [Replied(NoPendingWarning)])
    case Some(k) =>
      if env.fault == Some(UserFetchFails) then Result(store, [Replied(ErrorNotice)])
      else if ActionOf(customId) == Approve then ApproveFound(store, k, userId, admin, env)
      else RejectFound(store, k, userId, admin, env, events)
  }

  /**
   * Once the only pending record of a user is approved, a second click on
   * either button finds nothing: the warning is the only effect and the
   * store stays as it is.
   */
  lemma RepeatedDecisionIsNoOp(store: seq<Record>, userId: string, admin: Admin, env: Env,
                               events: seq<Event>, again: Action, admin2: Admin, env2: Env, events2: seq<Event>)
    requires '_' !in userId
    requires LatestPending(store, userId).Some?
    requires forall j :: 0 <= j < |store| && Some(j) != LatestPending(store, userId) ==> !PendingFor(store[j], userId)
    requires Commits(Approve, admin, env, events)
    ensures var first := Handle(store, ButtonId(Approve, userId), admin, env, events);
      first.store != store &&
      Handle(first.store, ButtonId(again, userId), admin2, env2, events2)
        == Result(first.store, [Replied(NoPendingWarning)])
  {
    ButtonRoundTrip(Approve, userId);
    ButtonRoundTrip(again, userId);
    var k := LatestPending(store, userId).value;
    var first := Handle(store, ButtonId(Approve, userId), admin, env, events);
    assert first.store == store[k := Decided(store[k], Aprovado, admin.username)];
    assert first.store[k] != store[k];
    DecidingLastPending(store, k, Aprovado, admin.username);
  }

  /**
   * A reject click whose reason never arrives from the clicking admin leaves
   * the store untouched; the prompt is the only effect.
   */
  lemma RejectWithoutReason(store: seq<Record>, userId: string, admin: Admin, env: Env, events: seq<Event>)
    requires '_' !in userId
    requires LatestPending(store, userId).Some?
    requires env.fault != Some(UserFetchFails)
    requires !Collect(admin.id, events).Got?
    ensures Handle(store, ButtonId(Reject, userId), admin, env, events) == Result(store, [Replied(ReasonPrompt)])
  {
    ButtonRoundTrip(Reject, userId);
  }

  /**
   * A reject click commits only with a reason: the record becomes rejected by
   * the admin, and the rejection notice carries the text of the admin's first
   * message.
   */
  lemma RejectWithReason(store: seq<Record>, userId: string, admin: Admin, env: Env, events: seq<Event>)
    requires '_' !in userId
    requires LatestPending(store, userId).Some?
    requires env.fault == None
    requires Collect(admin.id, events).Got?
    ensures var k := LatestPending(store, userId).value;
      var res := Handle(store, ButtonId(Reject, userId), admin, env, events);
      var reason := events[Collect(admin.id, events).at].msg;
      reason.authorId == admin.id &&
      res.store == store[k := Decided(store[k], Reprovado, admin.username)] &&
      res.effects == [Replied(ReasonPrompt), RejectionNotice(userId, reason.content), ReasonAcknowledged(userId)]
  {
    ButtonRoundTrip(Reject, userId);
  }

  /**
   * With nothing failing, approval announces the record's name, grants the
   * role when one is configured, sends the provisioning command built from
   * the record's name and password when the command channel exists, and
   * acknowledges last.
   */
  lemma ApproveEffects(store: seq<Record>, userId: string, admin: Admin, env: Env, events: seq<Event>)
    requires '_' !in userId
    requires LatestPending(store, userId).Some?
    requires env.fault == None
    ensures var wl := store[LatestPending(store, userId).value];
      Handle(store, ButtonId(Approve, userId), admin, env, events).effects ==
        [ApprovalNotice(userId, wl.userName)]
        + (if env.approvedRole then [RoleGranted(userId)] else [])
        + (if env.rconChannel then [RconSent(RconCommand(wl.userName, Password(wl.respostas)))] else [])
        + [Replied(ApprovedBy(admin.username))]
  {
    ButtonRoundTrip(Approve, userId);
  }

  /**
   * When saving the approval fails, the announcement (and role grant) has
   * already gone out but the record is still pending: the side effects are
   * not rolled back.
   */
  lemma NoticeSurvivesFailedSave(store: seq<Record>, userId: string, admin: Admin, env: Env, events: seq<Event>)
    requires '_' !in userId
    requires LatestPending(store, userId).Some?
    requires env.fault == Some(SaveFails)
    ensures var res := Handle(store, ButtonId(Approve, userId), admin, env, events);
      res.store == store &&
      ApprovalNotice(userId, store[LatestPending(store, userId).value].userName) in res.effects &&
      Replied(ErrorNotice) in res.effects
  {
    ButtonRoundTrip(Approve, userId);
  }

  /** Approved and rejected records are never changed by a decision. */
  lemma TerminalRecordsUnchanged(store: seq<Record>, customId: string, admin: Admin, env: Env,
                                 events: seq<Event>, j: nat)
    requires IsDecisionId(customId)
    requires j < |store| && store[j].status != Pendente
    ensures Handle(store, customId, admin, env, events).store[j] == store[j]
  {
  }
}

=== FILE: intake.dfy ===
/**
 * One whole intake (`iniciarWhitelist`): the private channel is created and
 * the click acknowledged, the question loop runs, and on completion the
 * submission is posted for review with its two decision buttons and stored
 * as a pending record; on timeout the channel is removed and nothing is stored.
 */
module Intake {
  import opened Wrappers
  import opened Schema
  import opened Questions
  import opened Collector
  import opened Buttons
  import Session

  /** Fallback display name when the first answer is empty. */
  const UnknownName: string := "Desconhecido"

  /**
   * How far opening the session gets: creating the private channel throws,
   * the channel is created but the reply to the start click throws, or both
   * succeed and the first question is asked. Either throw is caught and only
   * logged, so nothing further happens.
   */
  datatype Opening = ChannelFails | AckFails | Opened

  /** Externally visible actions of an intake, in order. */
  datatype Effect =
    | ChannelCreated             // the private channel exists from here on until deleted
    | ChannelAck                 // ephemeral reply to the start click naming the private channel
    | TimeoutNotice              // "time is up" message in the private channel
    | ReviewPost(userId: string, answers: seq<Answer>, approveId: string, rejectId: string)
    | Confirmation               // "submitted for review" message in the private channel
    | ChannelDeleted

  /** No review is posted among the actions. */
  predicate NoReviewPost(effects: seq<Effect>) {
    forall e | e in effects :: !e.ReviewPost?
  }

  /** Store after the intake, the session's outcome (None when the session never opened) and the actions. */
  datatype Result = Result(store: seq<Record>, session: Option<Session.Outcome>, effects: seq<Effect>)

  /** `respostas[0]?.resposta || "Desconhecido"`: the display name is never empty. */
  function DisplayName(answers: seq<Answer>): (name: string)
    ensures |name| > 0
    ensures |answers| > 0 && answers[0].resposta != "" ==> name == answers[0].resposta
    ensures (|answers| == 0 || answers[0].resposta == "") ==> name == UnknownName
  {
    if |answers| > 0 && answers[0].resposta != "" then answers[0].resposta else UnknownName
  }

  /**
   * The record stored for a completed session, linked to the review channel
   * it was posted in. Because of the name fallback it passes the schema's
   * required-field rule whenever the applicant id is non-empty.
   */
  function Submission(applicant: string, answers: seq<Answer>, reviewChannel: string, now: nat): (r: Record)
    ensures Valid(r) <==> applicant != ""
    ensures r.userId == applicant && r.userName == DisplayName(answers) && r.respostas == answers
    ensures r.status == Pendente && r.aprovadoPor == None && r.motivoReprovacao == None
    ensures r.data == now && r.canalLog == Some(reviewChannel)
  {
    NewRecord(applicant, DisplayName(answers), answers, now).(canalLog := Some(reviewChannel))
  }

  /** The store and the actions once the question loop has stopped. */
  datatype Concluded = Concluded(store: seq<Record>, effects: seq<Effect>)

  /**
   * What follows once the question loop has stopped with outcome `o`: the
   * store and the actions after the click acknowledgement. `reviewChannel`
   * is None when the completion throws before the record is saved: the
   * staff channel cannot be fetched, the review embed is refused, or the
   * review post fails. The throw happens inside the collector's callback,
   * so nothing is stored and the private channel is left in place.
   */
  function Conclude(store: seq<Record>, applicant: string, o: Session.Outcome,
                    reviewChannel: Option<string>, now: nat): (res: Concluded)
    ensures ChannelCreated !in res.effects && ChannelAck !in res.effects
    ensures |res.store| <= |store| + 1 && store <= res.store
    ensures |res.store| == |store| + 1 <==> o.Completed? && reviewChannel.Some?
    ensures |res.store| == |store| + 1 ==> res.store[|store|] == Submission(applicant, o.answers, reviewChannel.value, now)
    ensures ChannelDeleted in res.effects <==> o.Expired? || (o.Completed? && reviewChannel.Some?)
    ensures TimeoutNotice in res.effects <==> o.Expired?
    ensures o.Completed? && reviewChannel.Some? ==>
      res.effects == [ReviewPost(applicant, o.answers, ButtonId(Approve, applicant), ButtonId(Reject, applicant)),
                      Confirmation, ChannelDeleted]
    ensures !(o.Completed? && reviewChannel.Some?) ==>
      Confirmation !in res.effects && NoReviewPost(res.effects)
  {
    match o
    case Completed(answers) =>
      (match reviewChannel
       case None => Concluded(store, [])
       case Some(ch) =>
         Concluded(store + [Submission(applicant, answers, ch, now)],
                   [ReviewPost(applicant, answers, ButtonId(Approve, applicant), ButtonId(Reject, applicant)),
                    Confirmation, ChannelDeleted]))
    case Expired(_) => Concluded(store, [TimeoutNotice, ChannelDeleted])
    case InProgress(_) => Concluded(store, [])
  }

  /**
   * Runs an intake for `applicant`. `opening` says how far opening the
   * session gets, `reviewChannel` is the staff channel the review post is
   * delivered to (None when anything before the save throws), `now` the
   * submission time and `events` what the session's collectors receive.
   * When the click cannot be acknowledged, the channel stays open with no
   * question asked.
   */
  function Run(store: seq<Record>, applicant: string, opening: Opening,
               reviewChannel: Option<string>, now: nat, events: seq<Event>): (res: Result)
    ensures opening == ChannelFails ==> res == Result(store, None, [])
    ensures opening == AckFails ==> res == Result(store, None, [ChannelCreated])
    ensures opening == Opened ==> res.session == Some(Session.Start(applicant, events))
    ensures ChannelCreated in res.effects <==> opening != ChannelFails
    ensures |res.store| <= |store| + 1 && store <= res.store
    ensures |res.store| == |store| + 1 <==>
      res.session.Some? && res.session.value.Completed? && reviewChannel.Some?
    ensures |res.store| == |store| + 1 ==>
      var r := res.store[|store|];
      r.userId == applicant && r.status == Pendente && r.data == now &&
      r.respostas == res.session.value.answers &&
      r.userName == DisplayName(r.respostas) &&
      r.aprovadoPor == None && r.motivoReprovacao == None && r.canalLog == reviewChannel
    ensures multiset(res.effects)[ChannelAck] == (if opening == Opened then 1 else 0)
    ensures ChannelDeleted in res.effects <==>
      res.session.Some? && (res.session.value.Expired? || (res.session.value.Completed? && reviewChannel.Some?))
    ensures TimeoutNotice in res.effects <==> res.session.Some? && res.session.value.Expired?
  {
    match opening
    case ChannelFails => Result(store, None, [])
    case AckFails => Result(store, None, [ChannelCreated])
    case Opened =>
      var o := Session.Start(applicant, events);
      var after := Conclude(store, applicant, o, reviewChannel, now);
      Result(after.store, Some(o), [ChannelCreated, ChannelAck] + after.effects)
  }

  /**
   * The hand-over to review: a completed intake whose review post is
   * delivered posts exactly once, the applicant's answers with the applicant's
   * approve and reject buttons, then confirms and deletes the channel; every
   * other intake posts no review and no confirmation.
   */
  lemma PostsReview(store: seq<Record>, applicant: string, opening: Opening,
                    reviewChannel: Option<string>, now: nat, events: seq<Event>)
    ensures var res := Run(store, applicant, opening, reviewChannel, now, events);
      && (res.session.Some? && res.session.value.Completed? && reviewChannel.Some? ==>
            res.effects == [ChannelCreated, ChannelAck,
                            ReviewPost(applicant, res.session.value.answers,
                                       ButtonId(Approve, applicant), ButtonId(Reject, applicant)),
                            Confirmation, ChannelDeleted])
      && (!(res.session.Some? && res.session.value.Completed? && reviewChannel.Some?) ==>
            Confirmation !in res.effects && NoReviewPost(res.effects))
  {
    if opening == Opened {
      var o := Session.Start(applicant, events);
      var c := Conclude(store, applicant, o, reviewChannel, now);
      if o.Completed? && reviewChannel.Some? {
        OpeningThenThree(ReviewPost(applicant, o.answers, ButtonId(Approve, applicant), ButtonId(Reject, applicant)),
                         Confirmation, ChannelDeleted);
      } else {
        QuietPrefix(c.effects);
      }
    }
  }

  /** The two opening actions followed by three more. */
  lemma OpeningThenThree(a: Effect, b: Effect, c: Effect)
    ensures [ChannelCreated, ChannelAck] + [a, b, c] == [ChannelCreated, ChannelAck, a, b, c]
  {
  }

  /** Putting the two opening actions in front adds no review post and no confirmation. */
  lemma QuietPrefix(rest: seq<Effect>)
    requires Confirmation !in rest && NoReviewPost(rest)
    ensures Confirmation !in [ChannelCreated, ChannelAck] + rest
    ensures NoReviewPost([ChannelCreated, ChannelAck] + rest)
  {
  }


  /**
   * The stored record holds, for every question in order, its key and the
   * text of the applicant's matching message; its name is the first answer
   * unless that is empty.
   */
  lemma StoredAnswers(store: seq<Record>, applicant: string, reviewChannel: Option<string>,
                      now: nat, events: seq<Event>)
    requires |Run(store, applicant, Opened, reviewChannel, now, events).store| == |store| + 1
    ensures var r := Run(store, applicant, Opened, reviewChannel, now, events).store[|store|];
      var msgs := Session.Accepted(applicant, events);
      |r.respostas| == QuestionCount && |msgs| >= QuestionCount &&
      (forall k :: 0 <= k < QuestionCount ==> r.respostas[k] == Answer(Perguntas[k].pergunta, msgs[k].content)) &&
      (msgs[0].content != "" ==> r.userName == msgs[0].content) &&
      (msgs[0].content == "" ==> r.userName == UnknownName)
  {
    Session.CompletedAnswers(applicant, events);
  }

  /** A session that times out stores nothing, whatever else holds. */
  lemma TimeoutStoresNothing(store: seq<Record>, applicant: string, reviewChannel: Option<string>,
                             now: nat, events: seq<Event>, q: nat)
    requires Session.Start(applicant, events) == Session.Expired(q)
    ensures Run(store, applicant, Opened, reviewChannel, now, events).store == store
    ensures q < QuestionCount && Timeout in events
  {
    Session.ExpiredAt(applicant, events, q);
  }
}

=== FILE: questions.dfy ===
/** The fixed questionnaire every applicant answers, in order. */
module Questions {

  /** One question: its key (stored with the answer) and the help text shown with it. */
  datatype Question = Question(pergunta: string, descricao: string)

  const QuestionCount: nat := 6

  /** Key of the question whose answer is used as the access password. */
  const PasswordKey: string := "Senha de acesso ao servidor"

  const Perguntas: seq<Question> := [
    Question("Nome do personagem",
      "Ex: Nome e sobrenome do seu personagem no RP (este também será o seu usuário para login no servidor)."),
    Question("Idade do personagem",
      "Quantos anos seu personagem tem? A idade deve ser coerente com a história do servidor. Leia o canal #📖・lore-servidor."),
    Question(PasswordKey,
      "Essa será sua senha para fazer login no servidor."),
    Question("História do personagem",
      "Conte a história do seu personagem. Ela deve ser coerente com a lore do servidor."),
    Question("Steam ID",
      "Informe seu SteamID."),
    Question("Como você conheceu nosso servidor?",
      "Pesquisando, convite de amigo, etc.")
  ]

  /** The list has exactly `QuestionCount` entries with pairwise distinct keys. */
  lemma PerguntasShape()
    ensures |Perguntas| == QuestionCount
    ensures forall i, j :: 0 <= i < j < |Perguntas| ==> Perguntas[i].pergunta != Perguntas[j].pergunta
  {
  }
}

=== FILE: router.dfy ===
/**
 * The interaction router (the `InteractionCreate` listener): which handler a
 * click reaches, and how the router itself acknowledges an interaction when
 * the id is missing or a handler throws.
 */
module Router {
  import opened Wrappers
  import opened Strings
  import opened Buttons

  datatype Route =
    | Ignore          // not a button, an unknown id, or a missing id on an already answered interaction
    | InvalidReply    // missing id: "invalid interaction" reply, nothing dispatched
    | StartIntake     // `iniciarWhitelist`
    | Decide          // `gerenciarWhitelist`

  /** JavaScript's `!customId`: absent or the empty string. */
  predicate Missing(customId: Option<string>) {
    customId.None? || customId.value == ""
  }

  /** Routing of one interaction; `replied` is the interaction's `replied` flag on arrival. */
  function RouteOf(isButton: bool, customId: Option<string>, replied: bool): (r: Route)
    ensures !isButton ==> r == Ignore
    ensures r == InvalidReply <==> isButton && Missing(customId) && !replied
    ensures r == StartIntake <==> isButton && customId == Some(StartId)
    ensures r == Decide <==> isButton && !Missing(customId) && IsDecisionId(customId.value)
    ensures r == Decide ==> TargetUser(customId.value).Some?
  {
    StartIsNotDecision();
    if !isButton then Ignore
    else if Missing(customId) then (if replied then Ignore else InvalidReply)
    else if customId.value == StartId then StartIntake
    else if IsDecisionId(customId.value) then (DecisionIdHasTarget(customId.value); Decide)
    else Ignore
  }

  /** The buttons the workflow itself creates always reach their handler. */
  lemma OwnButtonsRouted(a: Action, userId: string, replied: bool)
    ensures RouteOf(true, Some(StartId), replied) == StartIntake
    ensures RouteOf(true, Some(ButtonId(a, userId)), replied) == Decide
  {
    ButtonParse(a, userId);
  }

  /** The two ways of acknowledging an interaction. */
  datatype Ack = Reply | FollowUp

  /** Acknowledgement state of an interaction. */
  datatype Interaction = Interaction(replied: bool, deferred: bool)

  /**
   * The platform's rule: the first acknowledgement is a reply, and once an
   * interaction is replied to or deferred only follow-ups are accepted.
   */
  predicate Permitted(st: Interaction, a: Ack) {
    match a
    case Reply => !st.replied && !st.deferred
    case FollowUp => st.replied || st.deferred
  }

  /** The catch block's choice: follow up if already replied or deferred, reply otherwise. */
  function ErrorAck(st: Interaction): (a: Ack)
    ensures Permitted(st, a)
    ensures a == FollowUp <==> st.replied || st.deferred
  {
    if st.replied || st.deferred then FollowUp else Reply
  }

  /**
   * The acknowledgements the router itself delivers for one interaction, given
   * its state on arrival and whether the routed handler throws. A reply to a
   * missing id on a deferred interaction is refused by the platform, which
   * throws into the catch block. The catch block reads `replied || deferred`
   * when it runs; the state on arrival stands in for it because the two
   * agree in every case that reaches it. The start handler catches and logs
   * everything. The decision handler lets an error escape in two ways: from
   * its own error reply, which it sends only while the click is unanswered,
   * and from the no-pending warning, which is returned rather than awaited
   * inside its `try`, so a failure of it bypasses that handler's catch. Both
   * are a failed first reply, which leaves the click unanswered as it was on
   * arrival.
   */
  function RouterAcks(isButton: bool, customId: Option<string>, st: Interaction, handlerThrows: bool): (sent: seq<Ack>)
    ensures |sent| <= 1
    ensures forall i :: 0 <= i < |sent| ==> Permitted(st, sent[i])
    ensures RouteOf(isButton, customId, st.replied) in {StartIntake, Decide} ==>
              |sent| == (if handlerThrows then 1 else 0)
    ensures RouteOf(isButton, customId, st.replied) == InvalidReply ==> |sent| == 1
    ensures RouteOf(isButton, customId, st.replied) == Ignore ==> sent == []
  {
    match RouteOf(isButton, customId, st.replied)
    case Ignore => []
    case InvalidReply => if Permitted(st, Reply) then [Reply] else [ErrorAck(st)]
    case StartIntake => if handlerThrows then [ErrorAck(st)] else []
    case Decide => if handlerThrows then [ErrorAck(st)] else []
  }
}

=== FILE: schema.dfy ===
/**
 * The persisted whitelist application: its status enumeration, the
 * (question, answer) pairs, the record with its defaults, and the
 * required-field rule of the schema.
 */
module Schema {
  import opened Wrappers

  /** Review status of an application; `Pendente` is the only non-terminal one. */
  datatype Status = Pendente | Aprovado | Reprovado

  /** The string stored in the `status` field for each status. */
  function StatusName(s: Status): string {
    match s
    case Pendente => "pendente"
    case Aprovado => "aprovado"
    case Reprovado => "reprovado"
  }

  /** The enum check of the `status` field: only the three names are accepted. */
  function ParseStatus(name: string): (r: Option<Status>)
    ensures r.Some? <==> name in {"pendente", "aprovado", "reprovado"}
    ensures r.Some? ==> StatusName(r.value) == name
  {
    if name == "pendente" then Some(Pendente)
    else if name == "aprovado" then Some(Aprovado)
    else if name == "reprovado" then Some(Reprovado)
    else None
  }

  /** Every status is stored under a name the enum check accepts and reads back as itself. */
  lemma StatusRoundTrip(s: Status)
    ensures ParseStatus(StatusName(s)) == Some(s)
  {
    match s
    case Pendente =>
    case Aprovado =>
    case Reprovado =>
  }

  /** One entry of `respostas`: the question key and the applicant's text. */
  datatype Answer = Answer(pergunta: string, resposta: string)

  /**
   * A whitelist application. `data` is the creation time as an abstract,
   * totally ordered timestamp; absent optional fields are None (`null`).
   */
  datatype Record = Record(
    userId: string,
    userName: string,
    respostas: seq<Answer>,
    status: Status,
    aprovadoPor: Option<string>,
    motivoReprovacao: Option<string>,
    data: nat,
    canalLog: Option<string>)

  /** A record created with only the required fields and the creation time: every default applied. */
  function NewRecord(userId: string, userName: string, respostas: seq<Answer>, data: nat): (r: Record)
    ensures r.status == Pendente && StatusName(r.status) == "pendente"
    ensures r.aprovadoPor == None && r.motivoReprovacao == None && r.canalLog == None
    ensures r.userId == userId && r.userName == userName && r.respostas == respostas && r.data == data
  {
    Record(userId, userName, respostas, Pendente, None, None, data, None)
  }

  /**
   * The schema's `required` rule: a required string field rejects a missing
   * value and the empty string, so both `userId` and `userName` must hold at
   * least one character.
   */
  predicate Valid(r: Record)
    ensures Valid(r) <==> r.userId != "" && r.userName != ""
  {
    |r.userId| > 0 && |r.userName| > 0
  }
}

=== FILE: session.dfy ===
/**
 * The question loop of an intake session (`fazerPergunta`): question `i` is
 * asked, one collector waits for the applicant's reply, the reply is stored
 * under the question's key and question `i + 1` follows; a collector timeout
 * ends the session. The question index is always the number of answers so far.
 */
module Session {
  import opened Schema
  import opened Questions
  import opened Collector

  /** Where a session stands after the events seen so far. */
  datatype Outcome =
    | InProgress(answers: seq<Answer>)
    | Completed(answers: seq<Answer>)
    | Expired(question: nat)

  /** Answers stored under the question keys in question order, none past the last question. */
  predicate Keyed(answers: seq<Answer>) {
    |answers| <= QuestionCount &&
    forall k :: 0 <= k < |answers| ==> answers[k].pergunta == Perguntas[k].pergunta
  }

  /**
   * Continues a session holding `answers` over `events`: each collector
   * consumes one message by `applicant`, or the session expires at the
   * current question when its collector times out.
   */
  function Run(applicant: string, answers: seq<Answer>, events: seq<Event>): (o: Outcome)
    requires |answers| <= QuestionCount
    ensures o.Completed? ==> |o.answers| == QuestionCount && answers <= o.answers
    ensures o.InProgress? ==> |answers| <= |o.answers| < QuestionCount && answers <= o.answers
    ensures o.Expired? ==> |answers| <= o.question < QuestionCount
    decreases |events|
  {
    if |answers| == QuestionCount then Completed(answers)
    else match Collect(applicant, events)
      case Got(at) =>
        var next := answers + [Answer(Perguntas[|answers|].pergunta, events[at].msg.content)];
        Run(applicant, next, events[at + 1..])
      case TimedOut(_) => Expired(|answers|)
      case Waiting => InProgress(answers)
  }

  /** A new session: no answers yet, question 0 is asked first. */
  function Start(applicant: string, events: seq<Event>): Outcome {
    Run(applicant, [], events)
  }

  // ---------------------------------------------------------------------
  // Reference description: which messages the session accepts.
  // ---------------------------------------------------------------------

  /**
   * The applicant's messages that arrive before the first time limit fires,
   * in order. `events` are the messages the session's collectors receive, one
   * collector after the other; a message sent while no collector is listening
   * (between one answer and the next question being posted) is not an event.
   */
  function Accepted(applicant: string, events: seq<Event>): (msgs: seq<Message>)
    ensures forall k :: 0 <= k < |msgs| ==> msgs[k].authorId == applicant
  {
    if |events| == 0 || events[0].Timeout? then []
    else if events[0].msg.authorId == applicant then [events[0].msg] + Accepted(applicant, events[1..])
    else Accepted(applicant, events[1..])
  }

  /** Pairs the first messages with the first question keys. */
  function Label(msgs: seq<Message>): (answers: seq<Answer>)
    requires |msgs| <= QuestionCount
    ensures |answers| == |msgs|
  {
    seq(|msgs|, k requires 0 <= k < |msgs| => Answer(Perguntas[k].pergunta, msgs[k].content))
  }

  /** The outcome once `msgs` have been accepted and, possibly, a time limit fired after them. */
  function Classify(msgs: seq<Message>, timedOut: bool): Outcome {
    if |msgs| >= QuestionCount then Completed(Label(msgs[..QuestionCount]))
    else if timedOut then Expired(|msgs|)
    else InProgress(Label(msgs))
  }

  /** The outcome of a whole session, stated without collectors. */
  function Expected(applicant: string, events: seq<Event>): Outcome {
    Classify(Accepted(applicant, events), Timeout in events)
  }

  /** Events the collector ignores change neither the accepted messages nor whether a time limit fires. */
  lemma {:induction false} IgnoredPrefix(applicant: string, events: seq<Event>, n: nat)
    requires n <= |events|
    requires forall j :: 0 <= j < n ==> Ignored(applicant, events[j])
    ensures Accepted(applicant, events) == Accepted(applicant, events[n..])
    ensures Timeout in events <==> Timeout in events[n..]
    decreases n
  {
    if n > 0 {
      assert events[1..][n - 1..] == events[n..];
      IgnoredPrefix(applicant, events[1..], n - 1);
      assert events == [events[0]] + events[1..];
    }
  }

  /** A consumed message is the first accepted one, and the rest of the session continues after it. */
  lemma CollectGotAccepted(applicant: string, events: seq<Event>)
    requires Collect(applicant, events).Got?
    ensures var at := Collect(applicant, events).at;
      Accepted(applicant, events) == [events[at].msg] + Accepted(applicant, events[at + 1..]) &&
      (Timeout in events <==> Timeout in events[at + 1..])
  {
    var at := Collect(applicant, events).at;
    IgnoredPrefix(applicant, events, at);
    var tail := events[at..];
    assert tail[1..] == events[at + 1..];
    assert tail == [tail[0]] + tail[1..];
  }

  /** A collector that consumed nothing saw no accepted message; it timed out exactly when a time limit fired. */
  lemma CollectNotGotAccepted(applicant: string, events: seq<Event>)
    requires !Collect(applicant, events).Got?
    ensures Accepted(applicant, events) == []
    ensures Collect(applicant, events).TimedOut? <==> Timeout in events
  {
    match Collect(applicant, events)
    case TimedOut(at) =>
      IgnoredPrefix(applicant, events, at);
      assert events[at..][0] == Timeout;
    case Waiting =>
      IgnoredPrefix(applicant, events, |events|);
      assert events[|events|..] == [];
  }

  /** Label grows one answer at a time. */
  lemma LabelSnoc(msgs: seq<Message>, m: Message)
    requires |msgs| < QuestionCount
    ensures Label(msgs + [m]) == Label(msgs) + [Answer(Perguntas[|msgs|].pergunta, m.content)]
  {
  }

  /** One consumed message advances the session by exactly that answer. */
  lemma RunGot(applicant: string, prev: seq<Message>, events: seq<Event>)
    requires |prev| < QuestionCount
    requires Collect(applicant, events).Got?
    ensures var at := Collect(applicant, events).at;
      Run(applicant, Label(prev), events) == Run(applicant, Label(prev + [events[at].msg]), events[at + 1..])
  {
    LabelSnoc(prev, events[Collect(applicant, events).at].msg);
  }

  /** A collector that consumes nothing settles the session at the current question. */
  lemma RunNotGot(applicant: string, prev: seq<Message>, events: seq<Event>)
    requires |prev| < QuestionCount
    requires !Collect(applicant, events).Got?
    ensures Run(applicant, Label(prev), events)
         == Classify(prev + Accepted(applicant, events), Timeout in events)
  {
    CollectNotGotAccepted(applicant, events);
    assert prev + Accepted(applicant, events) == prev;
  }

  /**
   * Regrouping a message between a prefix and the rest. Kept as its own
   * lemma: stated inline, inside the context of `RunGotMatches`, the same
   * sequence equality is far more expensive for the solver.
   */
  lemma RegroupMessage(prev: seq<Message>, m: Message, more: seq<Message>)
    ensures prev + [m] + more == prev + ([m] + more)
  {
  }

  /** One consumed message: the reference description of the rest carries over to the whole. */
  lemma RunGotMatches(applicant: string, prev: seq<Message>, events: seq<Event>, at: nat)
    requires |prev| < QuestionCount
    requires Collect(applicant, events) == Got(at)
    requires Run(applicant, Label(prev + [events[at].msg]), events[at + 1..])
          == Classify(prev + [events[at].msg] + Accepted(applicant, events[at + 1..]), Timeout in events[at + 1..])
    ensures Run(applicant, Label(prev), events)
         == Classify(prev + Accepted(applicant, events), Timeout in events)
  {
    CollectGotAccepted(applicant, events);
    RunGot(applicant, prev, events);
    RegroupMessage(prev, events[at].msg, Accepted(applicant, events[at + 1..]));
  }

  /** From any point of a session, the loop ends exactly as the reference description says. */
  lemma {:induction false} RunMatches(applicant: string, prev: seq<Message>, events: seq<Event>)
    requires |prev| <= QuestionCount
    ensures Run(applicant, Label(prev), events)
         == Classify(prev + Accepted(applicant, events), Timeout in events)
    decreases |events|
  {
    if |prev| == QuestionCount {
      assert (prev + Accepted(applicant, events))[..QuestionCount] == prev;
    } else if Collect(applicant, events).Got? {
      var at := Collect(applicant, events).at;
      RunMatches(applicant, prev + [events[at].msg], events[at + 1..]);
      RunGotMatches(applicant, prev, events, at);
    } else {
      RunNotGot(applicant, prev, events);
    }
  }

  /** A whole session ends exactly as the reference description says. */
  lemma StartMatches(applicant: string, events: seq<Event>)
    ensures Start(applicant, events) == Expected(applicant, events)
  {
    assert Label([]) == [];
    RunMatches(applicant, [], events);
    assert [] + Accepted(applicant, events) == Accepted(applicant, events);
  }

  /** A completed session holds one answer per question, stored under the question keys in order. */
  lemma CompletedKeyed(applicant: string, events: seq<Event>)
    ensures Start(applicant, events).Completed? ==>
      |Start(applicant, events).answers| == QuestionCount && Keyed(Start(applicant, events).answers)
  {
    CompletedAnswers(applicant, events);
  }

  /**
   * A completed session holds exactly one answer per question, in question
   * order, each the text of the applicant's next accepted message; it
   * completes exactly when six of the applicant's messages arrive before any
   * time limit fires.
   */
  lemma CompletedAnswers(applicant: string, events: seq<Event>)
    ensures Start(applicant, events).Completed? <==> |Accepted(applicant, events)| >= QuestionCount
    ensures Start(applicant, events).Completed? ==>
      var answers := Start(applicant, events).answers;
      var msgs := Accepted(applicant, events);
      |answers| == QuestionCount &&
      forall k :: 0 <= k < QuestionCount ==>
        answers[k] == Answer(Perguntas[k].pergunta, msgs[k].content) && msgs[k].authorId == applicant
  {
    StartMatches(applicant, events);
  }

  /**
   * A session expires at question `q` exactly when a time limit fires after
   * only `q < 6` of the applicant's messages; it then holds no answers.
   */
  lemma ExpiredAt(applicant: string, events: seq<Event>, q: nat)
    ensures Start(applicant, events) == Expired(q) <==>
      (Timeout in events && |Accepted(applicant, events)| == q && q < QuestionCount)
  {
    StartMatches(applicant, events);
  }
}

=== FILE: setup.dfy ===
/** The start-prompt guard run once the client is ready (`setupWhitelistButton`). */
module Setup {
  import opened Wrappers

  datatype Outcome = ChannelMissing | AlreadyPresent | PromptPosted

  /** What the guard did, and the start channel's message count afterwards (None when it cannot be fetched). */
  datatype Guarded = Guarded(outcome: Outcome, channel: Option<nat>)

  /**
   * `channel` is the start channel's message count, None when the channel
   * cannot be fetched.
   */
  function Setup(channel: Option<nat>): (r: Guarded)
    ensures r.outcome == PromptPosted <==> channel == Some(0)
    ensures r.outcome == ChannelMissing <==> channel.None?
    ensures r.channel.None? <==> channel.None?
    ensures r.outcome != PromptPosted ==> r.channel == channel
    ensures r.outcome == PromptPosted ==> r.channel == Some(1)
  {
    match channel
    case None => Guarded(ChannelMissing, None)
    case Some(n) => if n > 0 then Guarded(AlreadyPresent, channel) else Guarded(PromptPosted, Some(n + 1))
  }

  /** Running the guard again after it posted never posts a second prompt. */
  lemma PostsAtMostOnce(channel: Option<nat>)
    ensures Setup(Setup(channel).channel).outcome != PromptPosted
  {
  }
}

=== FILE: store.dfy ===
/**
 * The application store as an ordered sequence of records (insertion order),
 * the pending-record lookup `findOne({ userId, status: "pendente" }).sort({ data: -1 })`
 * and the decision write `wl.status = …; wl.aprovadoPor = …; wl.save()`.
 */
module Store {
  import opened Wrappers
  import opened Schema

  /** A record the decision lookup can match for `userId`. */
  predicate PendingFor(r: Record, userId: string) {
    r.userId == userId && r.status == Pendente
  }

  /**
   * Index of the pending record of `userId` with the latest `data`; among
   * equal timestamps the one stored last. None when the user has no pending record.
   */
  function LatestPending(store: seq<Record>, userId: string): (r: Option<nat>)
    ensures r.Some? ==> r.value < |store| && PendingFor(store[r.value], userId)
    ensures r.Some? ==> forall k :: 0 <= k < |store| && PendingFor(store[k], userId) ==> store[k].data <= store[r.value].data
    ensures r.None? <==> forall k :: 0 <= k < |store| ==> !PendingFor(store[k], userId)
    decreases |store|
  {
    if |store| == 0 then None
    else
      var last := |store| - 1;
      var earlier := LatestPending(store[..last], userId);
      if PendingFor(store[last], userId) && (earlier.None? || store[earlier.value].data <= store[last].data)
      then Some(last)
      else earlier
  }

  /** The record after a staff decision: the new status and the deciding admin's name, nothing else. */
  function Decided(r: Record, s: Status, admin: string): (d: Record)
    ensures d.status == s && d.aprovadoPor == Some(admin)
    ensures d.userId == r.userId && d.userName == r.userName && d.respostas == r.respostas
    ensures d.motivoReprovacao == r.motivoReprovacao && d.data == r.data && d.canalLog == r.canalLog
  {
    r.(status := s, aprovadoPor := Some(admin))
  }

  /** A newly appended pending record that is at least as recent as every other one is the one found. */
  lemma LatestPendingAppend(store: seq<Record>, r: Record)
    requires r.status == Pendente
    requires forall k :: 0 <= k < |store| && PendingFor(store[k], r.userId) ==> store[k].data <= r.data
    ensures LatestPending(store + [r], r.userId) == Some(|store|)
  {
    assert (store + [r])[..|store|] == store;
  }

  /**
   * Once the only pending record of a user is decided (approved or rejected),
   * the lookup finds nothing for that user.
   */
  lemma DecidingLastPending(store: seq<Record>, k: nat, s: Status, admin: string)
    requires k < |store|
    requires forall j :: 0 <= j < |store| && j != k ==> !PendingFor(store[j], store[k].userId)
    requires s != Pendente
    ensures LatestPending(store[k := Decided(store[k], s, admin)], store[k].userId) == None
  {
    var after := store[k := Decided(store[k], s, admin)];
    assert forall j :: 0 <= j < |after| ==> !PendingFor(after[j], store[k].userId);
  }
}

=== FILE: strings.dfy ===
/**
 * The few JavaScript string operations the workflow relies on:
 * `startsWith`, `includes`, and `split` on a one-character separator
 * followed by indexing (`split("_")[1]`).
 */
module Strings {
  import opened Wrappers

  /** `s.startsWith(prefix)`: the first `|prefix|` characters of `s` are those of `prefix`. */
  predicate StartsWith(s: string, prefix: string)
    ensures StartsWith(s, prefix) <==> |prefix| <= |s| && forall i :: 0 <= i < |prefix| ==> s[i] == prefix[i]
  {
    |prefix| <= |s| && s[..|prefix|] == prefix
  }

  /** `t` occurs in `s` starting at position `i` */
  predicate OccursAt(s: string, t: string, i: int) {
    0 <= i <= |s| - |t| && s[i..i + |t|] == t
  }

  /**
   * `s.includes(t)`: `t` occurs somewhere in `s`. As in JavaScript, every
   * string includes the empty string and its own prefixes, and nothing
   * longer than itself.
   */
  predicate Contains(s: string, t: string)
    ensures |t| == 0 ==> Contains(s, t)
    ensures StartsWith(s, t) ==> Contains(s, t)
    ensures Contains(s, t) ==> |t| <= |s|
  {
    assert StartsWith(s, t) ==> OccursAt(s, t, 0);
    exists i | 0 <= i <= |s| - |t| :: OccursAt(s, t, i)
  }

  /** A string none of whose characters is the first character of `t` cannot include `t`. */
  lemma MissingFirstCharNotContained(s: string, t: string)
    requires |t| > 0
    requires t[0] !in s
    ensures !Contains(s, t)
  {
    forall i | 0 <= i <= |s| - |t|
      ensures !OccursAt(s, t, i)
    {
      assert s[i..i + |t|][0] == s[i];
    }
  }

  /** Position of the first occurrence of `c` in `s`, if any (`indexOf`, with -1 as None). */
  function IndexOf(s: string, c: char): (r: Option<nat>)
    ensures r.None? <==> c !in s
    ensures r.Some? ==> r.value < |s| && s[r.value] == c && c !in s[..r.value]
  {
    if |s| == 0 then None
    else if s[0] == c then Some(0)
    else match IndexOf(s[1..], c)
      case None => None
      case Some(i) =>
        assert s[..i + 1] == [s[0]] + s[1..][..i];
        Some(i + 1)
  }

  /**
   * `s.split(sep)` for a one-character separator: the maximal pieces of `s`
   * between separators, always at least one (the empty string splits to `[""]`).
   */
  function Split(s: string, sep: char): (parts: seq<string>)
    ensures |parts| >= 1
    ensures forall k :: 0 <= k < |parts| ==> sep !in parts[k]
    decreases |s|
  {
    match IndexOf(s, sep)
    case None => [s]
    case Some(i) => [s[..i]] + Split(s[i + 1..], sep)
  }

  /** A split yields more than one piece exactly when the separator occurs. */
  lemma SplitSingle(s: string, sep: char)
    ensures |Split(s, sep)| == 1 <==> sep !in s
  {
    match IndexOf(s, sep)
    case None =>
    case Some(i) =>
  }

  /** `parts.join(sep)` */
  function Join(parts: seq<string>, sep: char): string
    requires |parts| >= 1
  {
    if |parts| == 1 then parts[0] else parts[0] + [sep] + Join(parts[1..], sep)
  }

  /** `s.split(sep)[k]`, with None for JavaScript's `undefined` past the end. */
  function Field(s: string, sep: char, k: nat): (r: Option<string>)
    ensures r.Some? ==> sep !in r.value
    ensures r.None? <==> |Split(s, sep)| <= k
  {
    var parts := Split(s, sep);
    if k < |parts| then Some(parts[k]) else None
  }

  /** Splitting then joining gives back the original string. */
  lemma {:induction false} JoinSplit(s: string, sep: char)
    ensures Join(Split(s, sep), sep) == s
    decreases |s|
  {
    match IndexOf(s, sep)
    case None =>
    case Some(i) =>
      var tail := s[i + 1..];
      var parts := Split(tail, sep);
      assert Split(s, sep) == [s[..i]] + parts;
      JoinSplit(tail, sep);
      assert Join([s[..i]] + parts, sep) == s[..i] + [sep] + Join(parts, sep);
      assert s == s[..i] + [sep] + tail;
  }

  /** The first occurrence of `sep` in `p + [sep] + q` is right after `p` when `p` has none. */
  lemma IndexOfAfterPrefix(p: string, sep: char, q: string)
    requires sep !in p
    ensures IndexOf(p + [sep] + q, sep) == Some(|p|)
  {
    var s := p + [sep] + q;
    assert s[|p|] == sep;
    assert s[..|p|] == p;
  }

  /** Joining separator-free pieces then splitting gives back the pieces. */
  lemma {:induction false} SplitJoin(parts: seq<string>, sep: char)
    requires |parts| >= 1
    requires forall k :: 0 <= k < |parts| ==> sep !in parts[k]
    ensures Split(Join(parts, sep), sep) == parts
    decreases |parts|
  {
    if |parts| == 1 {
      assert IndexOf(parts[0], sep) == None;
    } else {
      var rest := Join(parts[1..], sep);
      assert Join(parts, sep) == parts[0] + [sep] + rest;
      SplitAfterPrefix(parts[0], sep, rest);
      SplitJoin(parts[1..], sep);
      assert parts == [parts[0]] + parts[1..];
    }
  }

  /** Splitting `p + [sep] + q` where `p` has no separator puts `p` first and then the pieces of `q`. */
  lemma SplitAfterPrefix(p: string, sep: char, q: string)
    requires sep !in p
    ensures Split(p + [sep] + q, sep) == [p] + Split(q, sep)
  {
    var s := p + [sep] + q;
    IndexOfAfterPrefix(p, sep, q);
    assert s[..|p|] == p;
    assert s[|p| + 1..] == q;
  }

  /** Appending a separator and more text never changes the first piece of a split. */
  lemma SplitHeadAppend(p: string, sep: char, q: string)
    ensures Split(p + [sep] + q, sep)[0] == Split(p, sep)[0]
  {
    match IndexOf(p, sep)
    case None =>
      SplitAfterPrefix(p, sep, q);
    case Some(i) =>
      var head, tail := p[..i], p[i + 1..];
      CutAt(p, i);
      SplitAfterPrefix(head, sep, tail);
      Regroup(head, sep, tail, q);
      SplitAfterPrefix(head, sep, tail + [sep] + q);
  }

  /** A string is the part before position `i`, the character there and the part after. */
  lemma CutAt(s: string, i: nat)
    requires i < |s|
    ensures s == s[..i] + [s[i]] + s[i + 1..]
  {
  }

  /** Moving the appended text inside the part after the first separator. */
  lemma Regroup(head: string, sep: char, tail: string, q: string)
    ensures head + [sep] + tail + [sep] + q == head + [sep] + (tail + [sep] + q)
  {
  }
}

=== FILE: workflow.dfy ===
/**
 * Properties of the whole workflow: the shape every stored record keeps
 * under intake and decisions, the password a completed questionnaire
 * yields, and an intake followed by an approval.
 */
module Workflow {
  import opened Wrappers
  import opened Strings
  import opened Schema
  import opened Questions
  import opened Collector
  import opened Buttons
  import opened Store
  import Session
  import Intake
  import Decision
  import Router

  /**
   * The shape of every record the workflow writes: required fields present,
   * one answer per question under its key, linked to its review posting, no
   * rejection reason, and a decider exactly when decided.
   */
  predicate WellFormed(r: Record) {
    Valid(r) &&
    |r.respostas| == QuestionCount && Session.Keyed(r.respostas) &&
    r.canalLog.Some? && r.motivoReprovacao == None &&
    (r.status == Pendente <==> r.aprovadoPor == None)
  }

  predicate StoreWellFormed(store: seq<Record>) {
    forall k :: 0 <= k < |store| ==> WellFormed(store[k])
  }

  /** An intake keeps every stored record well formed. */
  lemma IntakePreserves(store: seq<Record>, applicant: string, opening: Intake.Opening,
                        reviewChannel: Option<string>, now: nat, events: seq<Event>)
    requires StoreWellFormed(store)
    requires applicant != ""
    ensures StoreWellFormed(Intake.Run(store, applicant, opening, reviewChannel, now, events).store)
  {
    var res := Intake.Run(store, applicant, opening, reviewChannel, now, events);
    if |res.store| == |store| + 1 {
      var r := res.store[|store|];
      assert WellFormed(r) by {
        Session.CompletedKeyed(applicant, events);
      }
      assert res.store == store + [r];
    } else {
      assert res.store == store;
    }
  }

  /** A decision keeps every stored record well formed. */
  lemma DecisionPreserves(store: seq<Record>, customId: string, admin: Decision.Admin,
                          env: Decision.Env, events: seq<Event>)
    requires StoreWellFormed(store)
    requires IsDecisionId(customId)
    ensures StoreWellFormed(Decision.Handle(store, customId, admin, env, events).store)
  {
  }

  /** The key of the first question does not mention "Senha". */
  lemma FirstKeyNotPassword()
    ensures !Contains(Perguntas[0].pergunta, Decision.PasswordMarker)
  {
    var key := "Nome do personagem";
    assert Perguntas[0].pergunta == key;
    assert forall i | 0 <= i < |key| :: key[i] != 'S';
    MissingFirstCharNotContained(key, Decision.PasswordMarker);
  }

  /** The key of the second question does not mention "Senha". */
  lemma SecondKeyNotPassword()
    ensures !Contains(Perguntas[1].pergunta, Decision.PasswordMarker)
  {
    var key := "Idade do personagem";
    assert Perguntas[1].pergunta == key;
    assert forall i | 0 <= i < |key| :: key[i] != 'S';
    MissingFirstCharNotContained(key, Decision.PasswordMarker);
  }

  /** The key of the third question starts with "Senha". */
  lemma ThirdKeyIsPassword()
    ensures Contains(Perguntas[2].pergunta, Decision.PasswordMarker)
  {
    var key := PasswordKey;
    assert Perguntas[2].pergunta == key;
    assert key[0] == 'S' && key[1] == 'e' && key[2] == 'n' && key[3] == 'h' && key[4] == 'a';
    assert key[..5] == Decision.PasswordMarker;
    assert OccursAt(key, Decision.PasswordMarker, 0);
  }

  /** For a completed questionnaire the password is the third answer, or the placeholder when it is empty. */
  lemma PasswordOfSubmission(answers: seq<Answer>)
    requires |answers| == QuestionCount && Session.Keyed(answers)
    ensures Decision.Password(answers) ==
      (if answers[2].resposta != "" then answers[2].resposta else Decision.NoPassword)
  {
    FirstKeyNotPassword();
    SecondKeyNotPassword();
    ThirdKeyIsPassword();
    assert Decision.PasswordIndex(answers[2..]) == Some(0);
    assert Decision.PasswordIndex(answers[1..]) == Some(1);
  }

  /** The first answer or its fallback: the name a completed intake stores. */
  function Nick(msgs: seq<Message>): string
    requires |msgs| >= QuestionCount
  {
    if msgs[0].content != "" then msgs[0].content else Intake.UnknownName
  }

  /** The third answer or its fallback: the password a completed intake provisions. */
  function Senha(msgs: seq<Message>): string
    requires |msgs| >= QuestionCount
  {
    if msgs[2].content != "" then msgs[2].content else Decision.NoPassword
  }

  /** What a completed intake appends: one pending record of the applicant named after the first answer. */
  lemma SubmittedRecord(store: seq<Record>, applicant: string, reviewChannel: string, now: nat, events: seq<Event>)
    requires |Session.Accepted(applicant, events)| >= QuestionCount
    ensures var submitted := Intake.Run(store, applicant, Intake.Opened, Some(reviewChannel), now, events).store;
      var msgs := Session.Accepted(applicant, events);
      |submitted| == |store| + 1 && submitted == store + [submitted[|store|]] &&
      submitted[|store|].userId == applicant && submitted[|store|].status == Pendente &&
      submitted[|store|].data == now &&
      submitted[|store|].userName == Nick(msgs) &&
      Decision.Password(submitted[|store|].respostas) == Senha(msgs)
  {
    Session.CompletedAnswers(applicant, events);
    var submitted := Intake.Run(store, applicant, Intake.Opened, Some(reviewChannel), now, events).store;
    Intake.StoredAnswers(store, applicant, Some(reviewChannel), now, events);
    var r := submitted[|store|];
    assert submitted == store + [r];
    assert r.respostas[2].resposta == Session.Accepted(applicant, events)[2].content;
    PasswordOfSubmission(r.respostas);
  }

  /** The role grant of an approval, present exactly when an approved-member role is configured. */
  function RoleGrant(env: Decision.Env, applicant: string): seq<Decision.Effect> {
    if env.approvedRole then [Decision.RoleGranted(applicant)] else []
  }

  /**
   * Approving the newest pending record of an applicant with nothing failing
   * and the provisioning channel present, with or without a configured role.
   */
  lemma ApproveNewest(submitted: seq<Record>, n: nat, applicant: string, admin: Decision.Admin,
                      env: Decision.Env, later: seq<Event>)
    requires '_' !in applicant
    requires LatestPending(submitted, applicant) == Some(n)
    requires env.fault == None && env.rconChannel
    ensures Decision.Handle(submitted, ButtonId(Buttons.Approve, applicant), admin, env, later) ==
      Decision.Result(submitted[n := Decided(submitted[n], Aprovado, admin.username)],
        [Decision.ApprovalNotice(applicant, submitted[n].userName)] + RoleGrant(env, applicant) +
        [Decision.RconSent(Decision.RconCommand(submitted[n].userName, Decision.Password(submitted[n].respostas))),
         Decision.Replied(Decision.ApprovedBy(admin.username))])
  {
    ButtonRoundTrip(Buttons.Approve, applicant);
    Decision.ApproveEffects(submitted, applicant, admin, env, later);
    var wl := submitted[n];
    AppendPair([Decision.ApprovalNotice(applicant, wl.userName)] + RoleGrant(env, applicant),
      Decision.RconSent(Decision.RconCommand(wl.userName, Decision.Password(wl.respostas))),
      Decision.Replied(Decision.ApprovedBy(admin.username)));
  }

  /** Appending two elements one at a time is appending the pair. */
  lemma AppendPair<T>(a: seq<T>, x: T, y: T)
    ensures a + [x] + [y] == a + [x, y]
  {
  }

  /**
   * The review post of a completed intake hands the application over to the
   * decision handler: it carries the stored record's applicant and answers,
   * and both of its buttons are routed to the decision handler, read back as
   * their own action and name that record's applicant.
   */
  lemma PostedButtonsTarget(store: seq<Record>, applicant: string, reviewChannel: string, now: nat,
                            events: seq<Event>, replied: bool)
    requires '_' !in applicant
    requires Session.Start(applicant, events).Completed?
    ensures var res := Intake.Run(store, applicant, Intake.Opened, Some(reviewChannel), now, events);
      && |res.store| == |store| + 1 && |res.effects| == 5 && res.effects[2].ReviewPost?
      && var post, r := res.effects[2], res.store[|store|];
      && post.userId == r.userId && post.answers == r.respostas
      && post.approveId == ButtonId(Approve, r.userId) && post.rejectId == ButtonId(Reject, r.userId)
      && Router.RouteOf(true, Some(post.approveId), replied) == Router.Decide
      && Router.RouteOf(true, Some(post.rejectId), replied) == Router.Decide
      && ActionOf(post.approveId) == Approve && TargetUser(post.approveId) == Some(r.userId)
      && ActionOf(post.rejectId) == Reject && TargetUser(post.rejectId) == Some(r.userId)
  {
    Intake.PostsReview(store, applicant, Intake.Opened, Some(reviewChannel), now, events);
    DecisionButtons(Approve, applicant, replied);
    DecisionButtons(Reject, applicant, replied);
  }

  /** A decision button of an underscore-free applicant id is routed to the decision handler and parses back exactly. */
  lemma DecisionButtons(a: Action, applicant: string, replied: bool)
    requires '_' !in applicant
    ensures Router.RouteOf(true, Some(ButtonId(a, applicant)), replied) == Router.Decide
    ensures ActionOf(ButtonId(a, applicant)) == a && TargetUser(ButtonId(a, applicant)) == Some(applicant)
  {
    ButtonRoundTrip(a, applicant);
    ButtonParse(a, applicant);
  }

  /**
   * An applicant completes the questionnaire, the submission is stored, and
   * an admin clicks the approve button of its review post with nothing
   * failing and the provisioning channel present: the new record is the one approved, the role is granted when
   * configured, and the provisioning command names the first answer as nick
   * and the third answer as password (or their fallbacks when empty).
   */
  lemma IntakeThenApprove(store: seq<Record>, applicant: string, reviewChannel: string, now: nat,
                          events: seq<Event>, admin: Decision.Admin, env: Decision.Env, later: seq<Event>)
    requires '_' !in applicant
    requires forall k :: 0 <= k < |store| && PendingFor(store[k], applicant) ==> store[k].data <= now
    requires |Session.Accepted(applicant, events)| >= QuestionCount
    requires env.fault == None && env.rconChannel
    ensures var res := Intake.Run(store, applicant, Intake.Opened, Some(reviewChannel), now, events);
      var submitted := res.store;
      var msgs := Session.Accepted(applicant, events);
      |submitted| == |store| + 1 && |res.effects| == 5 && res.effects[2].ReviewPost? &&
      IsDecisionId(res.effects[2].approveId) &&
      var approved := Decision.Handle(submitted, res.effects[2].approveId, admin, env, later);
      approved.store == submitted[|store| := Decided(submitted[|store|], Aprovado, admin.username)] &&
      approved.effects == [Decision.ApprovalNotice(applicant, Nick(msgs))] + RoleGrant(env, applicant) +
                          [Decision.RconSent("/rcon adduser nick:" + Nick(msgs) + " senha:" + Senha(msgs)),
                           Decision.Replied(Decision.ApprovedBy(admin.username))]
  {
    var submitted := Intake.Run(store, applicant, Intake.Opened, Some(reviewChannel), now, events).store;
    SubmittedRecord(store, applicant, reviewChannel, now, events);
    PostedButtonsTarget(store, applicant, reviewChannel, now, events, false);
    LatestPendingAppend(store, submitted[|store|]);
    ApproveNewest(submitted, |store|, applicant, admin, env, later);
    var msgs := Session.Accepted(applicant, events);
    Decision.RconCommandText(Nick(msgs), Senha(msgs));
  }
}

=== FILE: wrappers.dfy ===
/** The optional value used wherever the source may produce `undefined` or `null`. */
module Wrappers {

  datatype Option<+T> = None | Some(value: T)
}
